=== FILE: README.md ===
# doctes, modelled in Dafny

doctes runs the JavaScript code blocks of a markdown file as checks. Each
fenced block tagged `js`, `javascript` or `cjs` is run with
`node --eval`. The tool records each process's exit code and output. It
then prints how many blocks passed and failed, and lists each failed block
as `filename:line`. The optional JSON output lists both the passing and
the failing blocks.

This project models the three decision-making parts of the tool as pure
functions over plain inputs:

- `Parser` (parser/index.js). `parser` builds a result record
  `{line, exitCode, stdout?, stderr?}` from a markdown node. It folds the
  child process's events into that record: stdout chunks, stderr chunks
  and `close(code)`. An empty command resolves at once.
- `Engine` (core/index.js). `executeBlocks` is modelled as a state
  machine over the root's top-level children. The processes are given as
  a trace of events, each tagged with the child index it belongs to. The
  state holds the running blocks' records, the shared result array, and
  the array as it stood at the first `resolve` call.
- `Checkbox` (checkbox/index.js). This covers argv defaulting, the choice
  between `--file` and `--dir` in `parsePath`, and `logCheck`.
  `logCheck` splits results into pass and fail, detects the
  `--json`/`--silent` conflict and sets the exit status. It also covers
  the loop over files.
- `Js` holds the JavaScript value shapes these records carry:
  `undefined`, `null`, strings and numbers. It also holds `=== 0` and
  truthiness.

## Behaviour worth knowing

Each point below is a fact about the code, and a lemma states it:

- **Append order.** Results are appended in the order the processes
  close, not in document order. A block that closed earlier in the
  trace comes earlier in the array (`Engine.CloseOrderPrefix`,
  `Engine.CloseOrderRespectsTime`). The promise settles when the block
  at the root's last `code` index closes. The settled array leaves out
  every block that closes later (`Engine.ResolveRule`,
  `Engine.SlowSecondBlockExample`).
- **Unsettled promise.** If some block is runnable but the last code
  block is not, the promise never settles (`Engine.NeverSettles`). The run
  then stops at that file (`Checkbox.StallsAtUnsettledFile`).
- **No runnable block.** A document with no runnable block is reported
  as a failure. The comment at parser/index.js:12 says the empty command
  should "exit successfully". But the root placeholder's `exitCode` is
  the root's missing `value`, that is `undefined`, which is not `=== 0`.
  A document with no code block at all gets two placeholders
  (`Engine.NoRunnableBlock`, `Checkbox.PlaceholderFiledAsFail`).
- **Runnable tags.** Only `js`, `javascript` and `cjs` are run. `mjs`
  and untagged fences are inert (`Engine.ExecutableIffTag`).
- **Exit status.** The final exit status is decided by the last file
  alone. An earlier file's failure is overwritten by a later file's pass
  (`Checkbox.LastFileDecidesStatus`, `Checkbox.EarlierFailureForgotten`).
- **`--json` with `--silent`.** This conflict is detected inside
  `logCheck`, per file, after the partition
  (`Checkbox.JsonAndSilentAborts`). In directory mode with no files it is
  never detected (`Checkbox.NoFilesNoConflict`).
- **`--file=a.md`.** The `=` spelling of `--file` does not stop
  `--dir=./` from being appended (`Checkbox.DefaultArgv`,
  `Checkbox.EqualsFormGetsDefaultDir`). Option parsing then sees both
  options.

## Model

| member | source | states |
|---|---|---|
| `Js.IsZero` | checkbox/index.js:77 | No contract of its own: strict `=== 0`, so `'0'`, `null` and `undefined` are not zero. `Checkbox.PartitionExact` and `Checkbox.PlaceholderFiledAsFail` state what it decides: a root placeholder, whose exit code is `undefined`, is filed as a failure. |
| `Js.TruthyString` | checkbox/index.js:47-58 | No contract of its own: string option truthiness, where absent and `''` are falsy. `Checkbox.SelectMode` and `Checkbox.Cli` state which branch each combination of `file` and `dir` takes. |
| `Js.TruthyBool` | checkbox/index.js:84 | No contract of its own: flag truthiness, `true` only. `Checkbox.LogCheck` and `Checkbox.JsonAndSilentAborts` state that the conflict is raised exactly when both flags are set. |
| `Parser.Parse` | parser/index.js:1-32 | The empty command resolves at once with the node's line, `exitCode` equal to the node's `value`, and no `stdout` or `stderr`. A process resolves exactly when it has emitted a `close`. The resolved record keeps the node's line. |
| `Parser.Initial` | parser/index.js:6-9 | No contract of its own: the record starts with the node's line and its `value` as `exitCode`, with no streams. `Parser.Parse` and `Parser.ExitCodeBeforeClose` state what it means. |
| `Parser.Apply` | parser/index.js:15-28 | No contract of its own: one listener firing. `Parser.ReplayLastWriteWins` states its effect over a sequence of events. |
| `Parser.Replay` | parser/index.js:15-28 | No contract of its own: the listeners firing in event order. `Parser.ReplayKeepsLine`, `Parser.ReplayLastWriteWins` and `Parser.FieldsPresentIffData` state its meaning. |
| `Parser.FirstClose` | parser/index.js:25-28 | Finds the first `close` event, the one that resolves the promise. It returns none exactly when no `close` was emitted. |
| `Parser.ReplayKeepsLine` | parser/index.js:6-9 | No event changes the record's `line`. |
| `Parser.ReplayLastWriteWins` | parser/index.js:15-28 | Each of `stdout`, `stderr` and `exitCode` holds what the last event of its kind wrote. With no such event, the field keeps its earlier value. Chunks replace each other and are never concatenated. |
| `Parser.StdoutLastWriteWins` | parser/index.js:15-18 | `stdout` is the chunk of the last stdout data event, or unchanged if there was none. |
| `Parser.StderrLastWriteWins` | parser/index.js:20-23 | `stderr` is the chunk of the last stderr data event, or unchanged if there was none. |
| `Parser.ExitCodeLastWriteWins` | parser/index.js:25-27 | `exitCode` is the code of the last `close`, or unchanged if there was none. |
| `Parser.FieldsPresentIffData` | parser/index.js:6-9 | Starting from a node, `stdout` (or `stderr`) exists exactly when at least one data event of that stream happened. |
| `Parser.ExitCodeBeforeClose` | parser/index.js:8 | Until a `close` arrives, `exitCode` is the node's `value`, not a number. |
| `Parser.ParseOnClose` | parser/index.js:25-28 | A process's resolved record has the first `close`'s code. Its `stdout` and `stderr` are what the data events before that `close` left. |
| `Parser.ParseStableAfterClose` | parser/index.js:25-28 | Events after the first `close` do not change the resolved value. |
| `Parser.LastChunkWinsExample` | parser/index.js:15-28 | Stdout `a`, stderr `x`, stdout `b`, then close 1 resolves with stdout `b`, stderr `x` and exit code 1. |
| `Engine.LastCodeIndex` | core/index.js:22 | Returns -1 exactly when no child is a code node. Otherwise it returns the index of a code child with no code child after it. |
| `Engine.UsefulLanguage` | core/index.js:29 | No contract of its own: the root branch's test of each child's `lang`, which does not check the node's type; `lang` is `undefined` on a node that is not `code`. `Engine.ExecutableIffTag` states that on top-level children it agrees with the spawning test. |
| `Engine.Executable` | core/index.js:37 | No contract of its own: the spawning test, a code node tagged `js`, `javascript` or `cjs`. `Engine.ExecutableIffTag` states which children pass it. |
| `Engine.Placeholder` | core/index.js:23 | No contract of its own: what `parser('', root)` resolves with. `Engine.NoRunnableBlock` states that it has the root's line and an `undefined` exit code, and `Checkbox.PlaceholderFiledAsFail` that it is filed as a failure. |
| `Engine.Resolve` | core/index.js:25-43 | No contract of its own: a `resolve` call, where only the first call takes effect. `Engine.StepOnlyAppends` and `Engine.RunKeepsRootBranch` state that a settled value never changes afterwards. |
| `Engine.Spawned` | core/index.js:37-40 | No contract of its own: one fresh record per spawned block. `Engine.RunKeepsRootBranch` states that only executable blocks are ever running, and `Engine.ExecutableIffTag` which blocks those are. |
| `Engine.ExecutableIffTag` | core/index.js:29-37 | A child is spawned exactly when it is a code node tagged `js`, `javascript` or `cjs`. The root branch's test and the spawning branch's test agree on every top-level child. Untagged and `mjs` blocks are inert. |
| `Engine.RootBranch` | core/index.js:21-34 | Nothing is running. Two placeholders are pushed when no child is a code node, one when code children exist but none is runnable, and none otherwise. Every pushed record is the root placeholder. The promise is resolved with one placeholder exactly when some placeholder was pushed. |
| `Engine.Start` | core/index.js:19-40 | No contract of its own: the root branch plus one record per spawned block. `Engine.RunInv` starts from it. |
| `Engine.Step` | core/index.js:37-44 | No contract of its own: one process event. `Engine.StepOnlyAppends` and `Engine.RunInv` state its meaning. |
| `Engine.StepOnlyAppends` | core/index.js:37-44 | An event never starts a process. It only appends to the array: one record on the `close` of a running block, none otherwise. A settled promise keeps its value, because later `resolve` calls are ignored. |
| `Engine.Run` | core/index.js:16-47 | No contract of its own: the events in trace order, after the root branch and the spawns. `Engine.RunKeepsRootBranch`, `Engine.AppendedInCloseOrder`, `Engine.ResolveRule` and `Engine.NeverSettles` state its meaning. |
| `Engine.RunKeepsRootBranch` | core/index.js:19-44 | Only spawned blocks are ever running. The root branch's placeholders stay at the front of the array. A promise the root branch settled keeps that value whatever the processes do. |
| `Engine.CloseOrder` | core/index.js:37-41 | The close order lists each executable block whose process has closed, once each, and nothing else. |
| `Engine.CloseOrderPrefix` | core/index.js:37-41 | The close order only grows at its end: the order after any prefix of the trace is a prefix of the final order. |
| `Engine.CloseOrderRespectsTime` | core/index.js:37-41 | A block whose process closed within the first `n` events comes before, in the close order, every block whose process had not closed by then. |
| `Engine.AppendedInCloseOrder` | core/index.js:37-41 | On the runnable path, the shared array holds one record per closed block, in close order. Record `k` is what `parser` resolved with for the `k`-th block to close, and it carries that block's start line. |
| `Engine.OneResultPerExecutableBlock` | core/index.js:37-41 | Once every spawned process has closed, the array has exactly one record per executable block, each with that block's line. |
| `Engine.ResolveRule` | core/index.js:42-44 | On the runnable path, the promise has settled exactly when the block at the last code index is executable and has closed. The settled value is the array up to and including that block's record. |
| `Engine.NeverSettles` | core/index.js:22-44 | If some child is runnable but the last code child is not, the promise never settles, whatever the processes do. |
| `Engine.NoRunnableBlock` | core/index.js:21-34 | Without a runnable child, nothing is spawned and events change nothing. The array holds one root placeholder, or two when there is no code child at all. The promise settles with the first. The placeholder has the root's line and an `undefined` exit code. |
| `Engine.SlowSecondBlockExample` | core/index.js:37-44 | Three runnable blocks close in the order first, third, second. The array is in that order. The settled value holds only the first and third. |
| `Checkbox.DefaultArgv` | checkbox/index.js:40-42 | Argv is kept as a prefix. One token, `--dir=./`, is appended exactly when argv has neither the exact token `--dir` nor `--file`. |
| `Checkbox.EqualsFormGetsDefaultDir` | checkbox/index.js:40-42 | `--file=a.md` still gets `--dir=./` appended. `--file a.md` does not. |
| `Checkbox.SelectMode` | checkbox/index.js:46-67 | The conflict branch runs exactly when both `file` and `dir` are truthy. The file branch runs exactly when only `file` is truthy, and the dir branch when only `dir` is. Empty strings are falsy. |
| `Checkbox.Cli` | checkbox/index.js:46-67 | The run aborts with the file/dir error exactly when both `file` and `dir` are truthy; no file's processing can raise it. A `json`/`silent` abort happens only when both flags are set. With neither option, nothing happens. The file branch processes the one named file and so logs at most one report. The dir branch processes the discovered files. |
| `Checkbox.Entries` | checkbox/index.js:76-82 | No contract of its own: the loop's pushes to one list. `Checkbox.EntriesAtPositions` and `Checkbox.PartitionExact` state its meaning. |
| `Checkbox.Partition` | checkbox/index.js:71-82 | No contract of its own: the `{pass, fail}` object. `Checkbox.PartitionExact` and `Checkbox.PartitionCounts` state its meaning. |
| `Checkbox.ProcessFiles` | checkbox/index.js:58-67 | The only error a run over files can raise is the `json`/`silent` one, and only when both flags are set. A stalled run has logged fewer reports than there are files. A finished run has logged one per file, and it has an exit status exactly when there was a file. |
| `Checkbox.Passes` | checkbox/index.js:77 | No contract of its own: the pass test `exitCode === 0`. `Checkbox.PartitionExact` states that `pass` holds exactly the results that pass it and `fail` the rest. |
| `Checkbox.PositionsExact` | checkbox/index.js:76-82 | The positions of a class (pass or fail) increase, and they are exactly the results of that class. |
| `Checkbox.EntriesAtPositions` | checkbox/index.js:76-82 | Entry `k` of a list is `{line, filename}` for the result at the class's `k`-th position. |
| `Checkbox.PartitionExact` | checkbox/index.js:76-82 | `pass` holds exactly the results with `exitCode === 0`, and `fail` holds all the others, each list in input order. Each entry carries its result's line and the single filename. |
| `Checkbox.PartitionCounts` | checkbox/index.js:76-82 | `pass.length + fail.length` equals the number of results. |
| `Checkbox.SingleResultPartition` | checkbox/index.js:76-82 | A single result goes to `pass` if its exit code is `0` and to `fail` otherwise. |
| `Checkbox.LogCheckStatusFromResults` | checkbox/index.js:76-106 | Without the `json`/`silent` conflict, `logCheck` logs a report, and its exit status is 1 exactly when some result's `exitCode` is not `=== 0`, and 0 exactly when every result's is. |
| `Checkbox.SomeFailIffFailing` | checkbox/index.js:76-82 | `fail` is non-empty exactly when some result's `exitCode` is not `=== 0`. |
| `Checkbox.LogCheck` | checkbox/index.js:70-107 | The exit status follows the results themselves: see `Checkbox.LogCheckStatusFromResults`. Its own contract states that it throws exactly when `json` and `silent` are both set, before printing. Otherwise the report is the partition and JSON is printed exactly when `json === true`. The summary and failure list are printed exactly when `silent !== true`. The exit status is 1 exactly when `fail` is non-empty, and 0 otherwise. |
| `Checkbox.AllFilesLogged` | checkbox/index.js:58-67 | If every file's promise settles and no conflict throws, the run finishes with one log per file. Log `i` is `logCheck` of file `i`'s settled array. |
| `Checkbox.LastFileDecidesStatus` | checkbox/index.js:62-66 | The final exit status is 1 exactly when the last file's report has a failure. With no files it is unset. |
| `Checkbox.EarlierFailureForgotten` | checkbox/index.js:62-66 | A failing file followed by a passing one ends with status 0. |
| `Checkbox.JsonAndSilentAborts` | checkbox/index.js:84-86 | With `--json` and `--silent`, the run aborts at the first file whose promise settles, before any output. |
| `Checkbox.NoFilesNoConflict` | checkbox/index.js:58-67 | With no discovered files, the directory branch finishes with no log and no exit status, whatever `json` and `silent` are. |
| `Checkbox.StallsAtUnsettledFile` | checkbox/index.js:62-66 | A file whose promise never settles stops the run there, after the files before it have been logged. |
| `Checkbox.SingleBlockRun` | core/index.js:37-44 | A root whose one child is a runnable block settles with that block's record alone. |
| `Checkbox.PlaceholderFiledAsFail` | checkbox/index.js:77 | A file with no runnable block settles with the root placeholder. Its report is one failure at the root's line and no passes. |

## Left out

- Process spawning (`spawn('node', ['--eval', …])`) is not modelled. Each process is given by the events it emits, in a trace.
- Node emits `close` after both output streams have ended. `Parser.Parse` therefore ignores events after the first `close` of a process.
- Buffer-to-string decoding of chunks is not modelled. Chunks are strings.
- `collectBlocks` (file reading and markdown parsing) is not modelled. A document is its root: its top-level children and its start line.
- Code blocks nested inside lists or block quotes are left out. `visit` reaches them with indices relative to their own parent, but the model has only top-level children.
- `getAllFiles` (directory traversal) is not modelled. The discovered files are an input sequence.
- `parseArgs` (option parsing) is not modelled. Its result is the `Values` input. So `Checkbox.DefaultArgv` ends at argv and is not linked to `Values`.
- Console output is not modelled beyond what `Checkbox.LogCheck` records: whether JSON is printed, whether the summary is printed, and which entries are listed.
- Microtask timing is not modelled. `logCheck` reads the array object itself, and the model hands it the array as it stood at `resolve`. On the runnable path, no record is pushed between `resolve` and that read, because pushes follow process `close` events. On the no-code-block path, the read also comes first, because the job order is fixed. After the first `resolve`, `parsePath` resumes two jobs later: the reaction that settles `executeBlocks`' own promise, then the `await`. The second placeholder's push needs three: `parser`'s thenable-resolve job, its reaction, then the visitor's resumption. So `logCheck` sees one placeholder.
- Exit codes chosen by the runtime are not modelled. These are the code of an uncaught error, and the code used when the top-level await never settles. `Checkbox.Outcome` reports `Aborted` and `Stalled` instead.

=== FILE: checkbox.dfy ===
/** The command line (checkbox/index.js): argv defaulting, the choice
    between file and directory mode (`parsePath`), and the per-file report
    (`logCheck`). Option parsing, file discovery and printing are external;
    the model keeps the decisions they feed and the lists they print. */
module Checkbox {
  import opened Js
  import opened Parser
  import Engine

  /** The options `parseArgs` returns; each is absent unless given. */
  datatype Values = Values(file: Option<string>, dir: Option<string>, json: Option<bool>, silent: Option<bool>)

  /** One report entry: `{line, filename}`. */
  datatype Entry = Entry(line: int, filename: string)

  /** `{pass, fail}` as `logCheck` builds it. */
  datatype Report = Report(pass: seq<Entry>, fail: seq<Entry>)

  /** What a `logCheck` call that does not throw does: the report, whether
      it prints the JSON report, whether it prints the count summary, the
      entries it lists as failed checks, and the value it assigns to
      `process.exitCode`. */
  datatype Log = Log(report: Report, printsJson: bool, printsSummary: bool, listed: seq<Entry>, exitCode: int)

  /** The errors that end a run: `--json` with `--silent` (thrown by
      `logCheck`), and `--file` with `--dir` (`process.exitCode(1)` calls a
      number or `undefined`, which throws a TypeError). */
  datatype Error = JsonAndSilent | FileAndDir

  datatype LogResult = Logged(log: Log) | Threw(error: Error)

  /** Which branch of `parsePath` runs. */
  datatype Mode = BothGiven | FileMode(file: string) | DirMode(dir: string) | NoneGiven

  /** One markdown file as the run sees it: its name, its parsed root, and
      the events of the processes spawned for it. */
  datatype FileInput = FileInput(name: string, root: Engine.Root, trace: seq<Engine.ProcEvent>)

  /** How a run ends: aborted by an error, waiting forever on a promise that
      never settles (after the logs of the files before it), or finished
      with the logs of every file and the last value assigned to
      `process.exitCode` (absent when no file was processed). */
  datatype Outcome = Aborted(error: Error) | Stalled(logs: seq<Log>) | Finished(logs: seq<Log>, exitCode: Option<int>)

  /** `--dir=./` is appended when argv lacks both exact tokens `--dir` and
      `--file`; the `--name=value` spellings are not those tokens. */
  function DefaultArgv(argv: seq<string>): (out: seq<string>)
    ensures |argv| <= |out| && out[..|argv|] == argv
    ensures |out| == |argv| + 1 <==> "--dir" !in argv && "--file" !in argv
    ensures |out| != |argv| + 1 ==> out == argv
    ensures |out| == |argv| + 1 ==> out[|argv|] == "--dir=./"
  {
    if "--dir" !in argv && "--file" !in argv then argv + ["--dir=./"] else argv
  }

  /** `--file=a.md` is not the token `--file`, so the default directory is
      added next to it. */
  lemma EqualsFormGetsDefaultDir()
    ensures DefaultArgv(["--file=a.md"]) == ["--file=a.md", "--dir=./"]
    ensures DefaultArgv(["--file", "a.md"]) == ["--file", "a.md"]
  {
  }

  /** The branch `parsePath` takes, by JavaScript truthiness of the options
      (an empty string is falsy). */
  function SelectMode(values: Values): (m: Mode)
    ensures m.BothGiven? <==> TruthyString(values.file) && TruthyString(values.dir)
    ensures m.FileMode? <==> TruthyString(values.file) && !TruthyString(values.dir)
    ensures m.DirMode? <==> TruthyString(values.dir) && !TruthyString(values.file)
    ensures m.NoneGiven? <==> !TruthyString(values.file) && !TruthyString(values.dir)
    ensures m.FileMode? ==> m.file == values.file.value
    ensures m.DirMode? ==> m.dir == values.dir.value
  {
    if TruthyString(values.file) && TruthyString(values.dir) then BothGiven
    else if TruthyString(values.file) then FileMode(values.file.value)
    else if TruthyString(values.dir) then DirMode(values.dir.value)
    else NoneGiven
  }

  /** `result.exitCode === 0`. */
  predicate Passes(r: BlockResult)
  {
    IsZero(r.exitCode)
  }

  /** The entries the loop of `logCheck` pushes onto `pass` (`passing`) or
      onto `fail` (not `passing`), in the order of the results. */
  function Entries(results: seq<BlockResult>, filename: string, passing: bool): seq<Entry>
    decreases |results|
  {
    if results == [] then []
    else
      var n := |results| - 1;
      Entries(results[..n], filename, passing)
      + (if Passes(results[n]) == passing then [Entry(results[n].line, filename)] else [])
  }

  function Partition(results: seq<BlockResult>, filename: string): Report
  {
    Report(Entries(results, filename, true), Entries(results, filename, false))
  }

  /** The positions of the results that pass (`passing`) or fail. */
  function Positions(results: seq<BlockResult>, passing: bool): seq<nat>
    decreases |results|
  {
    if results == [] then []
    else
      var n := |results| - 1;
      Positions(results[..n], passing) + (if Passes(results[n]) == passing then [n] else [])
  }

  /** The positions of a class increase and are exactly the positions of
      the results of that class. */
  lemma {:induction false} PositionsExact(results: seq<BlockResult>, passing: bool)
    ensures var idx := Positions(results, passing);
            && (forall a, b | 0 <= a < b < |idx| :: idx[a] < idx[b])
            && (forall k | 0 <= k < |idx| :: idx[k] < |results|)
            && (forall i | 0 <= i < |results| :: i in idx <==> Passes(results[i]) == passing)
    decreases |results|
  {
    if results != [] {
      var n := |results| - 1;
      var front := results[..n];
      PositionsExact(front, passing);
      var prev := Positions(front, passing);
      var idx := Positions(results, passing);
      assert idx == prev + (if Passes(results[n]) == passing then [n] else []);
      assert forall i | 0 <= i < n :: front[i] == results[i];
      forall i | 0 <= i < |results|
        ensures i in idx <==> Passes(results[i]) == passing
      {
        if i < n {
          assert i in idx <==> i in prev;
        }
      }
    }
  }

  /** Entry `k` of a list carries the filename and the line of the result
      at the `k`-th position of its class. */
  lemma {:induction false} EntriesAtPositions(results: seq<BlockResult>, filename: string, passing: bool)
    ensures var idx := Positions(results, passing);
            && (forall k | 0 <= k < |idx| :: idx[k] < |results|)
            && |Entries(results, filename, passing)| == |idx|
            && forall k | 0 <= k < |idx| ::
                 Entries(results, filename, passing)[k] == Entry(results[idx[k]].line, filename)
    decreases |results|
  {
    PositionsExact(results, passing);
    if results != [] {
      var n := |results| - 1;
      var front := results[..n];
      EntriesAtPositions(front, filename, passing);
      assert forall i | 0 <= i < n :: front[i] == results[i];
    }
  }

  /** Each list of the report is, in input order, exactly the results of its
      class tagged with the one filename: positions increase, every result
      of the class has its position listed, and entry `k` carries the line
      of the result at position `k`. */
  lemma PartitionExact(results: seq<BlockResult>, filename: string, passing: bool)
    ensures var idx := Positions(results, passing);
            && (forall a, b | 0 <= a < b < |idx| :: idx[a] < idx[b])
            && (forall i | 0 <= i < |results| :: i in idx <==> Passes(results[i]) == passing)
            && (forall k | 0 <= k < |idx| :: idx[k] < |results|)
            && |Entries(results, filename, passing)| == |idx|
            && forall k | 0 <= k < |idx| ::
                 Entries(results, filename, passing)[k] == Entry(results[idx[k]].line, filename)
  {
    PositionsExact(results, passing);
    EntriesAtPositions(results, filename, passing);
  }

  /** Every result lands in exactly one of the two lists. */
  lemma {:induction false} PartitionCounts(results: seq<BlockResult>, filename: string)
    ensures |Partition(results, filename).pass| + |Partition(results, filename).fail| == |results|
    decreases |results|
  {
    if results != [] {
      PartitionCounts(results[..|results| - 1], filename);
    }
  }

  /** `logCheck`: partition, then throw when both `json` and `silent` are
      set, before anything is printed; otherwise print and set the exit
      status to 1 exactly when some check failed. */
  function LogCheck(results: seq<BlockResult>, filename: string, values: Values): (out: LogResult)
    ensures out.Threw? <==> TruthyBool(values.json) && TruthyBool(values.silent)
    ensures out.Threw? ==> out.error == JsonAndSilent
    ensures out.Logged? ==> out.log.report == Partition(results, filename)
    ensures out.Logged? ==> (out.log.exitCode == 1 <==> out.log.report.fail != [])
    ensures out.Logged? ==> (out.log.exitCode == 0 <==> out.log.report.fail == [])
    ensures out.Logged? ==> (out.log.printsJson <==> values.json == Some(true))
    ensures out.Logged? ==> (out.log.printsSummary <==> values.silent != Some(true))
    ensures out.Logged? ==> out.log.listed == (if out.log.printsSummary then out.log.report.fail else [])
  {
    var report := Partition(results, filename);
    if TruthyBool(values.json) && TruthyBool(values.silent) then Threw(JsonAndSilent)
    else
      var summary := values.silent != Some(true);
      Logged(Log(report, values.json == Some(true), summary,
                 if summary then report.fail else [],
                 if |report.fail| != 0 then 1 else 0))
  }

  /** The exit status `logCheck` sets is 1 exactly when some result's
      `exitCode` is not `=== 0`, and 0 when every block passed. */
  lemma LogCheckStatusFromResults(results: seq<BlockResult>, filename: string, values: Values)
    requires !(TruthyBool(values.json) && TruthyBool(values.silent))
    ensures LogCheck(results, filename, values).Logged?
    ensures LogCheck(results, filename, values).log.exitCode == 1 <==> exists i | 0 <= i < |results| :: !Passes(results[i])
    ensures LogCheck(results, filename, values).log.exitCode == 0 <==> forall i | 0 <= i < |results| :: Passes(results[i])
  {
    SomeFailIffFailing(results, filename);
  }

  /** The `fail` list is non-empty exactly when some result does not pass. */
  lemma SomeFailIffFailing(results: seq<BlockResult>, filename: string)
    ensures Partition(results, filename).fail != [] <==> exists i | 0 <= i < |results| :: !Passes(results[i])
  {
    PartitionExact(results, filename, false);
    var idx := Positions(results, false);
    if exists i | 0 <= i < |results| :: !Passes(results[i]) {
      var i :| 0 <= i < |results| && !Passes(results[i]);
      assert i in idx;
    }
    if |idx| > 0 {
      assert idx[0] in idx;
    }
  }

  /** The loop of the directory branch (and the single call of the file
      branch): for each file, await its blocks, then call `logCheck` on the
      array the promise settled with. `logCheck` is not awaited, so a throw
      becomes an unhandled rejection that ends the process. */
  function ProcessFiles(files: seq<FileInput>, values: Values): (o: Outcome)
    ensures o.Aborted? ==> o.error == JsonAndSilent && TruthyBool(values.json) && TruthyBool(values.silent)
    ensures o.Stalled? ==> |o.logs| < |files|
    ensures o.Finished? ==> |o.logs| == |files| && (o.exitCode.None? <==> files == [])
    decreases |files|
  {
    if files == [] then Finished([], None)
    else
      var f := files[0];
      match Engine.Run(f.root, f.trace).resolved
      case None => Stalled([])
      case Some(results) =>
        match LogCheck(results, f.name, values)
        case Threw(e) => Aborted(e)
        case Logged(log) =>
          match ProcessFiles(files[1..], values)
          case Aborted(e) => Aborted(e)
          case Stalled(logs) => Stalled([log] + logs)
          case Finished(logs, status) => Finished([log] + logs, if status.Some? then status else Some(log.exitCode))
  }

  /** `parsePath` after argv defaulting and option parsing: `single` is the
      file named by `--file`, `discovered` the files found under `--dir`. */
  function Cli(values: Values, single: FileInput, discovered: seq<FileInput>): (o: Outcome)
    ensures o == Aborted(FileAndDir) <==> TruthyString(values.file) && TruthyString(values.dir)
    ensures o == Aborted(JsonAndSilent) ==> TruthyBool(values.json) && TruthyBool(values.silent)
    ensures !TruthyString(values.file) && !TruthyString(values.dir) ==> o == Finished([], None)
    ensures TruthyString(values.file) && !TruthyString(values.dir) ==>
              o == ProcessFiles([single.(name := values.file.value)], values)
              && ((o.Stalled? || o.Finished?) ==> |o.logs| <= 1)
    ensures TruthyString(values.dir) && !TruthyString(values.file) ==> o == ProcessFiles(discovered, values)
  {
    match SelectMode(values)
    case BothGiven => Aborted(FileAndDir)
    case FileMode(file) => ProcessFiles([single.(name := file)], values)
    case DirMode(_) => ProcessFiles(discovered, values)
    case NoneGiven => Finished([], None)
  }

  /** When every file's promise settles and no option conflict throws, the
      run finishes with one log per file, log `i` being `logCheck` of file
      `i`'s settled array. */
  lemma {:induction false} AllFilesLogged(files: seq<FileInput>, values: Values)
    requires !(TruthyBool(values.json) && TruthyBool(values.silent))
    requires forall i | 0 <= i < |files| :: Engine.Run(files[i].root, files[i].trace).resolved.Some?
    ensures ProcessFiles(files, values).Finished?
    ensures |ProcessFiles(files, values).logs| == |files|
    ensures forall i | 0 <= i < |files| ::
              LogCheck(Engine.Run(files[i].root, files[i].trace).resolved.value, files[i].name, values)
              == Logged(ProcessFiles(files, values).logs[i])
    decreases |files|
  {
    if files != [] {
      var rest := files[1..];
      assert forall i | 0 <= i < |rest| :: rest[i] == files[i + 1];
      AllFilesLogged(rest, values);
      FinishedStep(files, values);
    }
  }

  /** A first file that settles, followed by a run that finishes: its log
      goes in front, and it sets the status only when no later file does. */
  lemma FinishedStep(files: seq<FileInput>, values: Values)
    requires !(TruthyBool(values.json) && TruthyBool(values.silent))
    requires files != [] && Engine.Run(files[0].root, files[0].trace).resolved.Some?
    requires ProcessFiles(files[1..], values).Finished?
    ensures var out := LogCheck(Engine.Run(files[0].root, files[0].trace).resolved.value, files[0].name, values);
            var tail := ProcessFiles(files[1..], values);
            && out.Logged?
            && ProcessFiles(files, values)
               == Finished([out.log] + tail.logs, if tail.exitCode.Some? then tail.exitCode else Some(out.log.exitCode))
  {
  }

  /** The final exit status is the last file's alone: 1 when that file has a
      failed check, 0 otherwise, whatever the files before it reported. */
  lemma {:induction false} LastFileDecidesStatus(files: seq<FileInput>, values: Values)
    requires !(TruthyBool(values.json) && TruthyBool(values.silent))
    requires forall i | 0 <= i < |files| :: Engine.Run(files[i].root, files[i].trace).resolved.Some?
    ensures ProcessFiles(files, values).Finished?
    ensures files == [] ==> ProcessFiles(files, values).exitCode == None
    ensures files != [] ==>
              var last := files[|files| - 1];
              var report := Partition(Engine.Run(last.root, last.trace).resolved.value, last.name);
              ProcessFiles(files, values).exitCode == Some(if report.fail != [] then 1 else 0)
    decreases |files|
  {
    if files != [] {
      var rest := files[1..];
      assert forall i | 0 <= i < |rest| :: rest[i] == files[i + 1];
      LastFileDecidesStatus(rest, values);
      LastFileStep(files, values);
    }
  }

  /** One step of `LastFileDecidesStatus`: the status after the first file is
      the rest's status, or the first file's own when nothing follows it. */
  lemma LastFileStep(files: seq<FileInput>, values: Values)
    requires !(TruthyBool(values.json) && TruthyBool(values.silent))
    requires files != [] && Engine.Run(files[0].root, files[0].trace).resolved.Some?
    requires Engine.Run(files[|files| - 1].root, files[|files| - 1].trace).resolved.Some?
    requires ProcessFiles(files[1..], values).Finished?
    requires files[1..] != [] ==>
               var rest := files[1..];
               var last := rest[|rest| - 1];
               var report := Partition(Engine.Run(last.root, last.trace).resolved.value, last.name);
               ProcessFiles(rest, values).exitCode == Some(if report.fail != [] then 1 else 0)
    ensures ProcessFiles(files, values).Finished?
    ensures var last := files[|files| - 1];
            var report := Partition(Engine.Run(last.root, last.trace).resolved.value, last.name);
            ProcessFiles(files, values).exitCode == Some(if report.fail != [] then 1 else 0)
  {
    FinishedStep(files, values);
    var rest := files[1..];
    var tail := ProcessFiles(rest, values);
    if rest == [] {
      var results := Engine.Run(files[0].root, files[0].trace).resolved.value;
      var out := LogCheck(results, files[0].name, values);
      assert out.log.exitCode == if Partition(results, files[0].name).fail != [] then 1 else 0;
    } else {
      assert tail.exitCode.Some?;
      assert rest[|rest| - 1] == files[|files| - 1];
    }
  }

  /** `--json` with `--silent` ends the run at the first file whose blocks
      settle, before any report is printed. */
  lemma JsonAndSilentAborts(files: seq<FileInput>, values: Values)
    requires TruthyBool(values.json) && TruthyBool(values.silent)
    requires files != [] && Engine.Run(files[0].root, files[0].trace).resolved.Some?
    ensures ProcessFiles(files, values) == Aborted(JsonAndSilent)
  {
  }

  /** A directory with no files finishes at once with no status,
      whatever the options: the `--json`/`--silent` conflict is only found
      inside `logCheck`, which never runs. */
  lemma NoFilesNoConflict(values: Values, single: FileInput)
    ensures ProcessFiles([], values) == Finished([], None)
    ensures SelectMode(values).DirMode? ==> Cli(values, single, []) == Finished([], None)
  {
  }

  /** A file whose promise never settles stops the run there: the files
      before it have been logged (each setting the exit status), the files
      after it are never read, and the loop never reaches its end. */
  lemma {:induction false} StallsAtUnsettledFile(files: seq<FileInput>, values: Values, i: nat)
    requires !(TruthyBool(values.json) && TruthyBool(values.silent))
    requires i < |files|
    requires forall j | 0 <= j < i :: Engine.Run(files[j].root, files[j].trace).resolved.Some?
    requires Engine.Run(files[i].root, files[i].trace).resolved.None?
    ensures ProcessFiles(files, values).Stalled?
    ensures |ProcessFiles(files, values).logs| == i
    decreases i
  {
    if i > 0 {
      var rest := files[1..];
      assert forall j | 0 <= j < |rest| :: rest[j] == files[j + 1];
      StallsAtUnsettledFile(rest, values, i - 1);
      StallPassesThrough(files, values);
    } else {
      StallsAtFirst(files, values);
    }
  }

  /** The first file's promise never settles: nothing is logged. */
  lemma StallsAtFirst(files: seq<FileInput>, values: Values)
    requires files != [] && Engine.Run(files[0].root, files[0].trace).resolved.None?
    ensures ProcessFiles(files, values) == Stalled([])
  {
  }

  /** A stall further on keeps the log of a first file that settled. */
  lemma StallPassesThrough(files: seq<FileInput>, values: Values)
    requires !(TruthyBool(values.json) && TruthyBool(values.silent))
    requires files != [] && Engine.Run(files[0].root, files[0].trace).resolved.Some?
    requires ProcessFiles(files[1..], values).Stalled?
    ensures ProcessFiles(files, values).Stalled?
    ensures |ProcessFiles(files, values).logs| == |ProcessFiles(files[1..], values).logs| + 1
  {
    var f := files[0];
    var out := LogCheck(Engine.Run(f.root, f.trace).resolved.value, f.name, values);
    assert out.Logged?;
    assert ProcessFiles(files, values) == Stalled([out.log] + ProcessFiles(files[1..], values).logs);
  }

  /** A file with no runnable block reports its root placeholder as a
      failure: the placeholder's `exitCode` is `undefined`, not `0`. */
  lemma PlaceholderFiledAsFail(f: FileInput)
    requires !Engine.AnyUseful(f.root.children)
    ensures Engine.Run(f.root, f.trace).resolved.Some?
    ensures Partition(Engine.Run(f.root, f.trace).resolved.value, f.name)
            == Report([], [Entry(f.root.line, f.name)])
  {
    Engine.NoRunnableBlock(f.root, f.trace);
    var ph := BlockResult(f.root.line, Undefined, None, None);
    assert Engine.Run(f.root, f.trace).resolved.value == [ph];
    assert [ph][..0] == [];
    assert !Passes(ph);
    assert Entries([ph], f.name, true) == [];
    assert Entries([ph], f.name, false) == [Entry(f.root.line, f.name)];
  }

  /** The report of a single result. */
  lemma SingleResultPartition(r: BlockResult, filename: string)
    ensures Partition([r], filename)
            == if Passes(r) then Report([Entry(r.line, filename)], []) else Report([], [Entry(r.line, filename)])
  {
    assert [r][..0] == [];
    var e := [Entry(r.line, filename)];
    var none: seq<Entry> := [];
    assert none + e == e && none + none == none;
    if Passes(r) {
      assert Entries([r], filename, true) == e;
      assert Entries([r], filename, false) == [];
    } else {
      assert Entries([r], filename, true) == [];
      assert Entries([r], filename, false) == e;
    }
  }

  /** A root whose only child is one runnable block, closing with `code`,
      settles with that block's record alone. */
  lemma SingleBlockRun(root: Engine.Root, code: Value)
    requires |root.children| == 1 && Engine.Executable(root.children[0])
    ensures Engine.Run(root, [Engine.ProcEvent(0, Close(code))]).resolved
            == Some([BlockResult(root.children[0].line, code, None, None)])
  {
    var trace := [Engine.ProcEvent(0, Close(code))];
    assert Engine.UsefulLanguage(root.children[0]);
    assert Engine.LastCodeIndex(root.children) == 0;
    assert Engine.RootBranch(root) == Engine.State(map[], [], None);
    assert 0 in Engine.Spawned(root);
    assert trace[..0] == [];
    var s0 := Engine.Start(root);
    assert s0.appended == [] && s0.resolved == None;
    var r := Apply(s0.live[0], Close(code));
    assert r == BlockResult(root.children[0].line, code, None, None);
    assert s0.appended + [r] == [r];
  }

  /** A failing first file followed by a passing one: the run ends with
      status 0. */
  lemma EarlierFailureForgotten()
    ensures var failing := Engine.Root([Engine.Code(Some("js"), "throw 1", 3)], 1);
            var passing := Engine.Root([Engine.Code(Some("js"), "1", 3)], 1);
            var files := [FileInput("a.md", failing, [Engine.ProcEvent(0, Close(Num(1)))]),
                          FileInput("b.md", passing, [Engine.ProcEvent(0, Close(Num(0)))])];
            var o := ProcessFiles(files, Values(None, Some("./"), None, None));
            && o.Finished? && |o.logs| == 2
            && o.logs[0].report.fail == [Entry(3, "a.md")]
            && o.exitCode == Some(0)
  {
    var failing := Engine.Root([Engine.Code(Some("js"), "throw 1", 3)], 1);
    var passing := Engine.Root([Engine.Code(Some("js"), "1", 3)], 1);
    SingleBlockRun(failing, Num(1));
    SingleBlockRun(passing, Num(0));
    SingleResultPartition(BlockResult(3, Num(1), None, None), "a.md");
    SingleResultPartition(BlockResult(3, Num(0), None, None), "b.md");
    var files := [FileInput("a.md", failing, [Engine.ProcEvent(0, Close(Num(1)))]),
                  FileInput("b.md", passing, [Engine.ProcEvent(0, Close(Num(0)))])];
    var values := Values(None, Some("./"), None, None);
    assert files[1..][1..] == [];
    var logB := Log(Report([Entry(3, "b.md")], []), false, true, [], 0);
    assert LogCheck([BlockResult(3, Num(0), None, None)], "b.md", values) == Logged(logB);
    assert ProcessFiles(files[1..], values) == Finished([logB], Some(0));
  }
}

=== FILE: engine.dfy ===
/** `executeBlocks` (core/index.js): chooses the executable top-level code
    blocks of a markdown root, collects one record per block as its process
    closes, and decides when the outer promise resolves.

    The processes are given by a trace of events, each tagged with the index
    of the child whose process emitted it; the trace fixes the order in which
    the processes' events interleave. */
module Engine {
  import opened Js
  import opened Parser

  /** A top-level child of the markdown root, reduced to what `executeBlocks`
      reads. Only `code` nodes carry a `lang` (absent for an untagged fence).
      `Other` is any node whose type is not `code`; its type is not kept, and
      its start line is never handed to `parser`, since no such node is
      spawned. */
  datatype Child =
    | Code(lang: Option<string>, value: string, line: int)
    | Other(line: int)

  /** The markdown root: its children in document order and its start line. */
  datatype Root = Root(children: seq<Child>, line: int)

  /** One event of the process spawned for child `block`. */
  datatype ProcEvent = ProcEvent(block: nat, event: Event)

  /** What `executeBlocks` holds while processes run: the records of spawned
      blocks whose process has not closed yet, the shared result array, and
      the array as it stood at the first `resolve` call (later calls are
      ignored by the promise). */
  datatype State = State(live: map<nat, BlockResult>, appended: seq<BlockResult>, resolved: Option<seq<BlockResult>>)

  /** `node.lang`: `undefined` on every node that is not a code block. */
  function Lang(c: Child): Option<string>
  {
    if c.Code? then c.lang else None
  }

  /** `usefulLanguageBlocks`, applied by the root branch to every child. */
  predicate UsefulLanguage(c: Child)
  {
    Lang(c) == Some("js") || Lang(c) == Some("javascript") || Lang(c) == Some("cjs")
  }

  /** The guard of the spawning branch: a `code` node with a runnable tag. */
  predicate Executable(c: Child)
  {
    c.Code? && (c.lang == Some("js") || c.lang == Some("javascript") || c.lang == Some("cjs"))
  }

  predicate AnyUseful(children: seq<Child>)
  {
    exists i | 0 <= i < |children| :: UsefulLanguage(children[i])
  }

  predicate IsExec(root: Root, b: nat)
  {
    b < |root.children| && Executable(root.children[b])
  }

  /** `children.findLastIndex(child => child.type === 'code')`. */
  function LastCodeIndex(children: seq<Child>): (i: int)
    ensures -1 <= i < |children|
    ensures i == -1 <==> forall j | 0 <= j < |children| :: !children[j].Code?
    ensures 0 <= i ==> children[i].Code? && forall j | i < j < |children| :: !children[j].Code?
    decreases |children|
  {
    if children == [] then -1
    else if children[|children| - 1].Code? then |children| - 1
    else LastCodeIndex(children[..|children| - 1])
  }

  /** The node handed to `parser`: a code block's start line and source text. */
  function ChildNode(c: Child): Node
  {
    Node(c.line, if c.Code? then Str(c.value) else Undefined)
  }

  /** The root handed to `parser`: the root has no `value`. */
  function RootNode(root: Root): Node
  {
    Node(root.line, Undefined)
  }

  /** What `await parser('', root)` yields. */
  function Placeholder(root: Root): BlockResult
  {
    Parse(NoCommand, RootNode(root)).value
  }

  /** `resolve(placeholder)`: only the first call settles the promise. */
  function Resolve(s: State): State
  {
    if s.resolved.Some? then s else s.(resolved := Some(s.appended))
  }

  /** The root branch of the visitor, once its awaits on the empty command
      have completed: a placeholder is pushed (and `resolve` called) when no
      child is a code node, and another when no child has a runnable tag. */
  function RootBranch(root: Root): (s: State)
    ensures s.live == map[]
    ensures |s.appended| == if LastCodeIndex(root.children) == -1 then 2 else if !AnyUseful(root.children) then 1 else 0
    ensures forall k | 0 <= k < |s.appended| :: s.appended[k] == Placeholder(root)
    ensures s.resolved == if s.appended == [] then None else Some([Placeholder(root)])
  {
    assert LastCodeIndex(root.children) == -1 ==> !AnyUseful(root.children);
    var ph := Placeholder(root);
    var s0 := State(map[], [], None);
    assert s0.appended + [ph] == [ph] && [ph] + [ph] == [ph, ph];
    var s1 := if LastCodeIndex(root.children) == -1 then Resolve(s0.(appended := s0.appended + [ph])) else s0;
    if !AnyUseful(root.children) then Resolve(s1.(appended := s1.appended + [ph])) else s1
  }

  /** The processes the visitor spawns: one per executable child, each with
      the record `parser` starts from. */
  function Spawned(root: Root): map<nat, BlockResult>
  {
    map b | b in ExecIndices(root) :: Initial(ChildNode(root.children[b]))
  }

  /** The state once `visit` has returned and the root branch has finished. */
  function Start(root: Root): State
  {
    RootBranch(root).(live := Spawned(root))
  }

  /** One process event. A data event updates its block's record; a `close`
      completes it, pushes it onto the shared array and, when the block sits
      at the root's last code index, resolves. Events of blocks that were
      never spawned or have already closed change nothing. */
  function Step(root: Root, s: State, pe: ProcEvent): State
  {
    if pe.block !in s.live then s
    else
      var r := Apply(s.live[pe.block], pe.event);
      if !pe.event.Close? then s.(live := s.live[pe.block := r])
      else
        var s' := State(s.live - {pe.block}, s.appended + [r], s.resolved);
        if pe.block == LastCodeIndex(root.children) then Resolve(s') else s'
  }

  /** The state after the processes have emitted `trace`. */
  function Run(root: Root, trace: seq<ProcEvent>): State
    decreases |trace|
  {
    if trace == [] then Start(root)
    else Step(root, Run(root, trace[..|trace| - 1]), trace[|trace| - 1])
  }

  /** One event never starts a process and only appends to the array, one
      record at the `close` of a running block; a settled promise keeps its
      value. */
  lemma StepOnlyAppends(root: Root, s: State, pe: ProcEvent)
    ensures Step(root, s, pe).live.Keys <= s.live.Keys
    ensures |Step(root, s, pe).appended| == |s.appended| + (if pe.block in s.live && pe.event.Close? then 1 else 0)
    ensures Step(root, s, pe).appended[..|s.appended|] == s.appended
    ensures s.resolved.Some? ==> Step(root, s, pe).resolved == s.resolved
  {
  }

  /** Only spawned blocks ever run, the root branch's placeholders stay at
      the front of the array, and a promise the root branch settled keeps
      its value whatever the processes do. */
  lemma {:induction false} RunKeepsRootBranch(root: Root, trace: seq<ProcEvent>)
    ensures Run(root, trace).live.Keys <= Spawned(root).Keys
    ensures |Start(root).appended| <= |Run(root, trace).appended|
    ensures Run(root, trace).appended[..|Start(root).appended|] == Start(root).appended
    ensures Start(root).resolved.Some? ==> Run(root, trace).resolved == Start(root).resolved
    decreases |trace|
  {
    if trace != [] {
      var p := trace[..|trace| - 1];
      var prev := Run(root, p);
      RunKeepsRootBranch(root, p);
      StepOnlyAppends(root, prev, trace[|trace| - 1]);
      var next := Run(root, trace);
      assert next.appended[..|prev.appended|] == prev.appended;
      assert next.appended[..|Start(root).appended|] == prev.appended[..|Start(root).appended|];
    }
  }

  /** The events of block `b`'s own process, in order. */
  function EventsOf(trace: seq<ProcEvent>, b: nat): seq<Event>
    decreases |trace|
  {
    if trace == [] then []
    else EventsOf(trace[..|trace| - 1], b)
         + (if trace[|trace| - 1].block == b then [trace[|trace| - 1].event] else [])
  }

  lemma ClosedAppend(events: seq<Event>, tail: seq<Event>)
    ensures Closed(events + tail) <==> Closed(events) || Closed(tail)
  {
    if Closed(events + tail) {
      var i :| 0 <= i < |events + tail| && (events + tail)[i].Close?;
      if i >= |events| {
        assert tail[i - |events|].Close?;
      } else {
        assert events[i].Close?;
      }
    }
    if Closed(events) {
      var i :| 0 <= i < |events| && events[i].Close?;
      assert (events + tail)[i].Close?;
    }
    if Closed(tail) {
      var i :| 0 <= i < |tail| && tail[i].Close?;
      assert (events + tail)[|events| + i].Close?;
    }
  }

  /** How one more event changes which processes have closed. */
  lemma ClosedStep(trace: seq<ProcEvent>)
    requires trace != []
    ensures forall b: nat :: Closed(EventsOf(trace, b)) <==>
              Closed(EventsOf(trace[..|trace| - 1], b))
              || (trace[|trace| - 1].block == b && trace[|trace| - 1].event.Close?)
  {
    var n := |trace| - 1;
    forall b: nat
      ensures Closed(EventsOf(trace, b)) <==>
              Closed(EventsOf(trace[..n], b)) || (trace[n].block == b && trace[n].event.Close?)
    {
      var tail := if trace[n].block == b then [trace[n].event] else [];
      ClosedAppend(EventsOf(trace[..n], b), tail);
      if trace[n].block == b && trace[n].event.Close? {
        assert tail[0].Close?;
      }
    }
  }

  /** The executable blocks in the order their processes first close. */
  function CloseOrder(root: Root, trace: seq<ProcEvent>): (co: seq<nat>)
    ensures forall b: nat :: b in co <==> IsExec(root, b) && Closed(EventsOf(trace, b))
    ensures forall i, j | 0 <= i < j < |co| :: co[i] != co[j]
    decreases |trace|
  {
    if trace == [] then []
    else
      var n := |trace| - 1;
      var prev := CloseOrder(root, trace[..n]);
      var e := trace[n];
      ClosedStep(trace);
      if e.event.Close? && IsExec(root, e.block) && !Closed(EventsOf(trace[..n], e.block))
      then prev + [e.block]
      else prev
  }

  /** The close order only grows at its end: the order after the first `n`
      events is a prefix of the order after the whole trace. */
  lemma {:induction false} CloseOrderPrefix(root: Root, trace: seq<ProcEvent>, n: nat)
    requires n <= |trace|
    ensures |CloseOrder(root, trace[..n])| <= |CloseOrder(root, trace)|
    ensures CloseOrder(root, trace)[..|CloseOrder(root, trace[..n])|] == CloseOrder(root, trace[..n])
    decreases |trace|
  {
    if n == |trace| {
      assert trace[..n] == trace;
    } else {
      var m := |trace| - 1;
      var front := trace[..m];
      assert front[..n] == trace[..n];
      CloseOrderPrefix(root, front, n);
      CloseOrderGrows(root, trace);
      var pre := CloseOrder(root, trace[..n]);
      var mid := CloseOrder(root, front);
      var co := CloseOrder(root, trace);
      assert co[..|mid|][..|pre|] == co[..|pre|];
    }
  }

  /** One more event keeps the close order so far as a prefix. */
  lemma CloseOrderGrows(root: Root, trace: seq<ProcEvent>)
    requires trace != []
    ensures |CloseOrder(root, trace[..|trace| - 1])| <= |CloseOrder(root, trace)|
    ensures CloseOrder(root, trace)[..|CloseOrder(root, trace[..|trace| - 1])|] == CloseOrder(root, trace[..|trace| - 1])
  {
    var prev := CloseOrder(root, trace[..|trace| - 1]);
    assert (prev + [trace[|trace| - 1].block])[..|prev|] == prev;
  }

  /** The position of `x` in `s`: its first occurrence. */
  function IndexOf(s: seq<nat>, x: nat): (k: nat)
    requires x in s
    ensures k < |s| && s[k] == x && x !in s[..k]
  {
    if s[0] == x then 0 else 1 + IndexOf(s[1..], x)
  }

  lemma IndexOfAppend(s: seq<nat>, x: nat, y: nat)
    requires x in s + [y]
    ensures IndexOf(s + [y], x) == if x in s then IndexOf(s, x) else |s|
  {
    var k := IndexOf(s + [y], x);
    if x in s {
      var j := IndexOf(s, x);
      assert (s + [y])[j] == x;
      assert s[..j] == (s + [y])[..j];
    }
  }

  /** The root's last code block is executable and its process has closed. */
  predicate LastClosed(root: Root, trace: seq<ProcEvent>)
  {
    var l := LastCodeIndex(root.children);
    0 <= l && l as nat in CloseOrder(root, trace)
  }

  /** The running blocks are the executable ones whose process has not closed. */
  ghost predicate LiveInv(root: Root, trace: seq<ProcEvent>, s: State)
  {
    forall b: nat :: b in s.live <==> IsExec(root, b) && !Closed(EventsOf(trace, b))
  }

  /** A running block's record is its events replayed over its node. */
  ghost predicate RecordsInv(root: Root, trace: seq<ProcEvent>, s: State)
  {
    forall b | b in s.live ::
      b < |root.children|
      && s.live[b] == Replay(Initial(ChildNode(root.children[b])), EventsOf(trace, b))
  }

  /** The shared array holds, in close order, what `parser` resolved with
      for each closed block. */
  ghost predicate AppendedInv(root: Root, trace: seq<ProcEvent>, s: State)
  {
    var co := CloseOrder(root, trace);
    && |s.appended| == |co|
    && forall k | 0 <= k < |co| ::
         co[k] < |root.children|
         && Parse(Process(EventsOf(trace, co[k])), ChildNode(root.children[co[k]])) == Resolved(s.appended[k])
  }

  /** The promise has resolved exactly when the last code block closed,
      with the array as it stood right after that block's push. */
  ghost predicate ResolvedInv(root: Root, trace: seq<ProcEvent>, s: State)
  {
    Settled(CloseOrder(root, trace), LastCodeIndex(root.children), s.appended, s.resolved)
  }

  /** `resolved` is the array up to the record of block `l`, once `l` is in
      the close order `co`, and nothing before. */
  predicate Settled(co: seq<nat>, l: int, appended: seq<BlockResult>, resolved: Option<seq<BlockResult>>)
  {
    && |appended| == |co|
    && resolved == (if 0 <= l && l as nat in co
                   then Some(appended[..IndexOf(co, l as nat) + 1])
                   else None)
  }

  /** What `Run` maintains once the root has a runnable block. */
  ghost predicate Inv(root: Root, trace: seq<ProcEvent>, s: State)
  {
    LiveInv(root, trace, s) && RecordsInv(root, trace, s) && AppendedInv(root, trace, s) && ResolvedInv(root, trace, s)
  }

  lemma StartInv(root: Root)
    requires AnyUseful(root.children)
    ensures Inv(root, [], Start(root))
  {
    var i :| 0 <= i < |root.children| && UsefulLanguage(root.children[i]);
    assert root.children[i].Code?;
  }

  /** What one more event does to each block's own events. */
  lemma EventsStep(p: seq<ProcEvent>, e: ProcEvent)
    ensures forall b: nat | b != e.block :: EventsOf(p + [e], b) == EventsOf(p, b)
    ensures EventsOf(p + [e], e.block) == EventsOf(p, e.block) + [e.event]
  {
    assert (p + [e])[..|p|] == p;
  }

  /** What one more event does to the close order. */
  lemma CloseOrderStep(root: Root, p: seq<ProcEvent>, e: ProcEvent)
    ensures CloseOrder(root, p + [e])
            == if e.event.Close? && IsExec(root, e.block) && !Closed(EventsOf(p, e.block))
               then CloseOrder(root, p) + [e.block] else CloseOrder(root, p)
  {
    assert (p + [e])[..|p|] == p;
  }

  /** The state after an event of a block that is not running. */
  lemma StepIgnored(root: Root, s0: State, e: ProcEvent)
    requires e.block !in s0.live
    ensures Step(root, s0, e) == s0
  {
  }

  /** The state after a data event of a running block. */
  lemma StepData(root: Root, s0: State, e: ProcEvent)
    requires e.block in s0.live && !e.event.Close?
    ensures Step(root, s0, e) == s0.(live := s0.live[e.block := Apply(s0.live[e.block], e.event)])
  {
  }

  /** The state after the `close` of a running block. */
  lemma StepClose(root: Root, s0: State, e: ProcEvent)
    requires e.block in s0.live && e.event.Close?
    ensures Step(root, s0, e).live == s0.live - {e.block}
    ensures Step(root, s0, e).appended == s0.appended + [Apply(s0.live[e.block], e.event)]
    ensures Step(root, s0, e).resolved
            == if e.block == LastCodeIndex(root.children) && s0.resolved.None?
               then Some(s0.appended + [Apply(s0.live[e.block], e.event)])
               else s0.resolved
  {
  }

  lemma LiveAfter(root: Root, p: seq<ProcEvent>, e: ProcEvent, s0: State, s: State)
    requires LiveInv(root, p, s0)
    requires e.block !in s0.live ==> s.live == s0.live
    requires e.block in s0.live && !e.event.Close? ==> s.live.Keys == s0.live.Keys
    requires e.block in s0.live && e.event.Close? ==> s.live == s0.live - {e.block}
    ensures LiveInv(root, p + [e], s)
  {
    var t := p + [e];
    assert t[..|p|] == p;
    ClosedStep(t);
  }

  lemma RecordsAfter(root: Root, p: seq<ProcEvent>, e: ProcEvent, s0: State, s: State)
    requires LiveInv(root, p, s0) && RecordsInv(root, p, s0)
    requires e.block !in s0.live ==> s.live == s0.live
    requires e.block in s0.live && !e.event.Close? ==>
               s.live == s0.live[e.block := Apply(s0.live[e.block], e.event)]
    requires e.block in s0.live && e.event.Close? ==> s.live == s0.live - {e.block}
    ensures RecordsInv(root, p + [e], s)
  {
    EventsStep(p, e);
    forall b | b in s.live
      ensures b < |root.children|
      ensures s.live[b] == Replay(Initial(ChildNode(root.children[b])), EventsOf(p + [e], b))
    {
      assert b in s0.live;
      if b == e.block {
        assert EventsOf(p + [e], b) == EventsOf(p, b) + [e.event];
        var evs := EventsOf(p, b) + [e.event];
        assert evs[..|evs| - 1] == EventsOf(p, b);
      } else {
        assert s.live[b] == s0.live[b];
        assert EventsOf(p + [e], b) == EventsOf(p, b);
      }
    }
  }

  /** The record pushed at a block's `close` is what `parser` resolves with. */
  lemma CloseRecord(evs: seq<Event>, node: Node, code: Value)
    requires !Closed(evs)
    ensures Parse(Process(evs + [Close(code)]), node) == Resolved(Apply(Replay(Initial(node), evs), Close(code)))
  {
    var all := evs + [Close(code)];
    assert FirstCloseAt(all, |evs|);
    ParseOnClose(all, node, |evs|);
    assert all[..|evs|] == evs;
  }

  /** An event that is not the `close` of a running block leaves the close
      order and the array as they were. */
  lemma AppendedAfterQuiet(root: Root, p: seq<ProcEvent>, e: ProcEvent, s0: State, s: State)
    requires LiveInv(root, p, s0) && AppendedInv(root, p, s0)
    requires !(e.block in s0.live && e.event.Close?)
    requires s.appended == s0.appended
    ensures AppendedInv(root, p + [e], s)
  {
    EventsStep(p, e);
    QuietCloseOrder(root, p, e, s0);
    var co := CloseOrder(root, p);
    forall k | 0 <= k < |co|
      ensures co[k] < |root.children|
      ensures Parse(Process(EventsOf(p + [e], co[k])), ChildNode(root.children[co[k]])) == Resolved(s.appended[k])
    {
      var b := co[k];
      if b == e.block {
        assert Closed(EventsOf(p, b));
        ParseStableAfterClose(EventsOf(p, b), ChildNode(root.children[b]), e.event);
      } else {
        assert EventsOf(p + [e], b) == EventsOf(p, b);
      }
    }
  }

  /** The `close` of a block not yet in the close order appends, at the
      end, what `parser` resolved with for it. */
  lemma AppendedAfterClose(root: Root, p: seq<ProcEvent>, e: ProcEvent, s0: State, s: State, r: BlockResult)
    requires AppendedInv(root, p, s0)
    requires e.block !in CloseOrder(root, p)
    requires CloseOrder(root, p + [e]) == CloseOrder(root, p) + [e.block]
    requires e.block < |root.children|
    requires Parse(Process(EventsOf(p + [e], e.block)), ChildNode(root.children[e.block])) == Resolved(r)
    requires s.appended == s0.appended + [r]
    ensures AppendedInv(root, p + [e], s)
  {
    var co0 := CloseOrder(root, p);
    var co := CloseOrder(root, p + [e]);
    forall k | 0 <= k < |co|
      ensures co[k] < |root.children|
      ensures Parse(Process(EventsOf(p + [e], co[k])), ChildNode(root.children[co[k]])) == Resolved(s.appended[k])
    {
      if k < |co0| {
        assert co[k] == co0[k] && s.appended[k] == s0.appended[k];
        OldEntryKept(root, p, e, s0, k);
      } else {
        assert co[k] == e.block && s.appended[k] == r;
      }
    }
  }

  /** The `close` of a running block: the block is executable, had not
      closed, and joins the end of the close order. */
  lemma ClosingCloseOrder(root: Root, p: seq<ProcEvent>, e: ProcEvent, s0: State)
    requires LiveInv(root, p, s0)
    requires e.block in s0.live && e.event.Close?
    ensures IsExec(root, e.block) && !Closed(EventsOf(p, e.block))
    ensures e.block !in CloseOrder(root, p)
    ensures CloseOrder(root, p + [e]) == CloseOrder(root, p) + [e.block]
  {
    CloseOrderStep(root, p, e);
  }

  /** The record a closing block pushes is what `parser` resolves with. */
  lemma NewEntry(root: Root, p: seq<ProcEvent>, e: ProcEvent, s0: State)
    requires RecordsInv(root, p, s0)
    requires e.block in s0.live && e.event.Close? && !Closed(EventsOf(p, e.block))
    ensures e.block < |root.children|
    ensures Parse(Process(EventsOf(p + [e], e.block)), ChildNode(root.children[e.block]))
            == Resolved(Apply(s0.live[e.block], e.event))
  {
    EventsStep(p, e);
    CloseRecord(EventsOf(p, e.block), ChildNode(root.children[e.block]), e.event.code);
  }

  /** An entry pushed before stays what `parser` resolved with for its
      block, once another block's event is added. */
  lemma OldEntryKept(root: Root, p: seq<ProcEvent>, e: ProcEvent, s0: State, k: nat)
    requires AppendedInv(root, p, s0)
    requires k < |CloseOrder(root, p)| && CloseOrder(root, p)[k] != e.block
    ensures CloseOrder(root, p)[k] < |root.children|
    ensures Parse(Process(EventsOf(p + [e], CloseOrder(root, p)[k])), ChildNode(root.children[CloseOrder(root, p)[k]]))
            == Resolved(s0.appended[k])
  {
    EventsStep(p, e);
  }

  /** Only the `close` of a running block extends the close order. */
  lemma QuietCloseOrder(root: Root, p: seq<ProcEvent>, e: ProcEvent, s0: State)
    requires LiveInv(root, p, s0)
    requires !(e.block in s0.live && e.event.Close?)
    ensures CloseOrder(root, p + [e]) == CloseOrder(root, p)
  {
    CloseOrderStep(root, p, e);
    assert e.block in s0.live <==> IsExec(root, e.block) && !Closed(EventsOf(p, e.block));
  }

  lemma ResolvedAfterQuiet(root: Root, p: seq<ProcEvent>, e: ProcEvent, s0: State, s: State)
    requires LiveInv(root, p, s0) && ResolvedInv(root, p, s0)
    requires !(e.block in s0.live && e.event.Close?)
    requires s.appended == s0.appended && s.resolved == s0.resolved
    ensures ResolvedInv(root, p + [e], s)
  {
    QuietCloseOrder(root, p, e, s0);
    assert LastClosed(root, p + [e]) == LastClosed(root, p);
  }

  /** The last code block closes: the promise resolves with the array
      right after its push. */
  lemma ResolvedAtLast(root: Root, p: seq<ProcEvent>, e: ProcEvent, s0: State, s: State)
    requires ResolvedInv(root, p, s0)
    requires e.block == LastCodeIndex(root.children)
    requires e.block !in CloseOrder(root, p)
    requires CloseOrder(root, p + [e]) == CloseOrder(root, p) + [e.block]
    requires |s.appended| == |s0.appended| + 1
    requires s.resolved == if s0.resolved.None? then Some(s.appended) else s0.resolved
    ensures ResolvedInv(root, p + [e], s)
  {
    var co0 := CloseOrder(root, p);
    var co := co0 + [e.block];
    assert !LastClosed(root, p);
    assert LastClosed(root, p + [e]);
    IndexOfAppend(co0, e.block, e.block);
    assert s.appended[..|co0| + 1] == s.appended;
  }

  /** Another block closes: the settled value, if any, is unchanged. */
  lemma ResolvedNotLast(root: Root, p: seq<ProcEvent>, e: ProcEvent, s0: State, s: State)
    requires ResolvedInv(root, p, s0)
    requires e.block != LastCodeIndex(root.children)
    requires CloseOrder(root, p + [e]) == CloseOrder(root, p) + [e.block]
    requires |s.appended| == |s0.appended| + 1 && s.appended[..|s0.appended|] == s0.appended
    requires s.resolved == s0.resolved
    ensures ResolvedInv(root, p + [e], s)
  {
    SettledPrefixKept(CloseOrder(root, p), e.block, LastCodeIndex(root.children), s0.appended, s.appended, s.resolved);
  }

  /** Appending a block other than `l` to the close order, and a record to
      the array, neither adds `l` nor changes the array up to `l`'s record. */
  lemma SettledPrefixKept(co0: seq<nat>, y: nat, l: int, a0: seq<BlockResult>, a: seq<BlockResult>, r: Option<seq<BlockResult>>)
    requires Settled(co0, l, a0, r) && y != l
    requires |a| == |a0| + 1 && a[..|a0|] == a0
    ensures Settled(co0 + [y], l, a, r)
  {
    if 0 <= l && l as nat in co0 {
      IndexOfAppend(co0, l as nat, y);
      var j := IndexOf(co0, l as nat);
      assert a[..j + 1] == a[..|a0|][..j + 1];
    }
  }

  lemma ResolvedAfterClose(root: Root, p: seq<ProcEvent>, e: ProcEvent, s0: State, s: State)
    requires LiveInv(root, p, s0) && ResolvedInv(root, p, s0)
    requires e.block in s0.live && e.event.Close?
    requires s.appended == s0.appended + [Apply(s0.live[e.block], e.event)]
    requires s.resolved == if e.block == LastCodeIndex(root.children) && s0.resolved.None?
                           then Some(s.appended) else s0.resolved
    ensures ResolvedInv(root, p + [e], s)
  {
    ClosingCloseOrder(root, p, e, s0);
    if e.block == LastCodeIndex(root.children) {
      ResolvedAtLast(root, p, e, s0, s);
    } else {
      assert s.appended[..|s0.appended|] == s0.appended;
      ResolvedNotLast(root, p, e, s0, s);
    }
  }

  /** One event preserves the invariant. */
  lemma StepInv(root: Root, p: seq<ProcEvent>, e: ProcEvent, s0: State)
    requires Inv(root, p, s0)
    ensures Inv(root, p + [e], Step(root, s0, e))
  {
    var s := Step(root, s0, e);
    if e.block !in s0.live {
      StepIgnored(root, s0, e);
      LiveAfter(root, p, e, s0, s);
      RecordsAfter(root, p, e, s0, s);
      AppendedAfterQuiet(root, p, e, s0, s);
      ResolvedAfterQuiet(root, p, e, s0, s);
    } else if !e.event.Close? {
      StepData(root, s0, e);
      LiveAfter(root, p, e, s0, s);
      RecordsAfter(root, p, e, s0, s);
      AppendedAfterQuiet(root, p, e, s0, s);
      ResolvedAfterQuiet(root, p, e, s0, s);
    } else {
      StepClose(root, s0, e);
      LiveAfter(root, p, e, s0, s);
      RecordsAfter(root, p, e, s0, s);
      ClosingCloseOrder(root, p, e, s0);
      NewEntry(root, p, e, s0);
      AppendedAfterClose(root, p, e, s0, s, Apply(s0.live[e.block], e.event));
      ResolvedAfterClose(root, p, e, s0, s);
    }
  }

  lemma {:induction false} RunInv(root: Root, trace: seq<ProcEvent>)
    requires AnyUseful(root.children)
    ensures Inv(root, trace, Run(root, trace))
    decreases |trace|
  {
    if trace == [] {
      StartInv(root);
    } else {
      var p := trace[..|trace| - 1];
      var e := trace[|trace| - 1];
      assert trace == p + [e];
      var s0 := Run(root, p);
      assert Run(root, trace) == Step(root, s0, e);
      RunInv(root, p);
      StepInv(root, p, e, s0);
    }
  }

  /** Every executable block has closed in `trace`. */
  predicate Complete(root: Root, trace: seq<ProcEvent>)
  {
    forall b | b in ExecIndices(root) :: Closed(EventsOf(trace, b))
  }

  /** The indices of the children `executeBlocks` spawns a process for
      (the bound on `b`, already part of `IsExec`, lets Dafny see that the
      set is finite). */
  function ExecIndices(root: Root): set<nat>
  {
    set b: nat | b < |root.children| && IsExec(root, b)
  }

  /** The runnable tags are exactly `js`, `javascript` and `cjs`, on code
      nodes; the root branch and the spawning branch agree on every
      top-level child, and the ES-module tag `mjs` is not runnable. */
  lemma ExecutableIffTag(c: Child)
    ensures Executable(c) <==> UsefulLanguage(c)
    ensures Executable(c) <==> c.Code? && c.lang.Some? && c.lang.value in {"js", "javascript", "cjs"}
    ensures c.Code? && (c.lang.None? || c.lang == Some("mjs")) ==> !Executable(c)
  {
  }

  /** On the executable path the shared array holds one record per closed
      block, in the order the processes closed, each being what `parser`
      resolved with for that block and carrying the block's start line. */
  lemma AppendedInCloseOrder(root: Root, trace: seq<ProcEvent>)
    requires AnyUseful(root.children)
    ensures |Run(root, trace).appended| == |CloseOrder(root, trace)|
    ensures forall k | 0 <= k < |CloseOrder(root, trace)| ::
              var b := CloseOrder(root, trace)[k];
              IsExec(root, b)
              && Parse(Process(EventsOf(trace, b)), ChildNode(root.children[b])) == Resolved(Run(root, trace).appended[k])
              && Run(root, trace).appended[k].line == root.children[b].line
  {
    RunInv(root, trace);
    var co := CloseOrder(root, trace);
    assert forall k | 0 <= k < |co| :: co[k] in co;
  }

  /** A block whose process closed within the first `n` events is listed,
      and so has its record pushed, before every block whose process had not
      closed by then. */
  lemma CloseOrderRespectsTime(root: Root, trace: seq<ProcEvent>, n: nat, b: nat, c: nat)
    requires n <= |trace|
    requires IsExec(root, b) && Closed(EventsOf(trace[..n], b))
    requires c in CloseOrder(root, trace) && !Closed(EventsOf(trace[..n], c))
    ensures b in CloseOrder(root, trace)
    ensures IndexOf(CloseOrder(root, trace), b) < IndexOf(CloseOrder(root, trace), c)
  {
    CloseOrderPrefix(root, trace, n);
    var pre := CloseOrder(root, trace[..n]);
    var co := CloseOrder(root, trace);
    assert b in pre && c !in pre;
    var k :| 0 <= k < |pre| && pre[k] == b;
    assert co[k] == b;
    assert b in co[..k + 1];
    assert c !in co[..|pre|];
  }

  lemma {:induction false} DistinctCard(s: seq<nat>)
    requires forall i, j | 0 <= i < j < |s| :: s[i] != s[j]
    ensures |set x: nat | x in s| == |s|
    decreases |s|
  {
    if s != [] {
      var n := |s| - 1;
      var t := s[..n];
      DistinctCard(t);
      var small := set x: nat | x in t;
      var big := set x: nat | x in s;
      assert s == t + [s[n]];
      assert big == small + {s[n]};
      assert s[n] !in small;
      assert |big| == |small| + 1;
      assert |small| == |t|;
      assert |big| == |s|;
    }
  }

  /** Once every spawned process has closed, each executable block has
      produced exactly one appended record, carrying its start line. */
  lemma OneResultPerExecutableBlock(root: Root, trace: seq<ProcEvent>)
    requires AnyUseful(root.children) && Complete(root, trace)
    ensures |Run(root, trace).appended| == |CloseOrder(root, trace)| == |ExecIndices(root)|
    ensures forall b | b in ExecIndices(root) ::
              exists k | 0 <= k < |Run(root, trace).appended| ::
                CloseOrder(root, trace)[k] == b && Run(root, trace).appended[k].line == root.children[b].line
    ensures forall k1, k2 | 0 <= k1 < k2 < |Run(root, trace).appended| ::
              CloseOrder(root, trace)[k1] != CloseOrder(root, trace)[k2]
  {
    AppendedInCloseOrder(root, trace);
    var co := CloseOrder(root, trace);
    assert (set x: nat | x in co) == ExecIndices(root);
    DistinctCard(co);
    forall b | b in ExecIndices(root)
      ensures exists k | 0 <= k < |co| :: co[k] == b && Run(root, trace).appended[k].line == root.children[b].line
    {
      var k := IndexOf(co, b);
      assert co[k] == b;
    }
  }

  /** The settlement part of the invariant, on its own. */
  lemma RunSettled(root: Root, trace: seq<ProcEvent>)
    requires AnyUseful(root.children)
    ensures Settled(CloseOrder(root, trace), LastCodeIndex(root.children), Run(root, trace).appended, Run(root, trace).resolved)
  {
    RunInv(root, trace);
  }

  /** On the executable path the promise has settled exactly when the block
      at the root's last code index is executable and its process has
      closed; it settled with the array as it stood right after that
      block's push, which leaves out every block that closed later. */
  lemma ResolveRule(root: Root, trace: seq<ProcEvent>)
    requires AnyUseful(root.children)
    ensures 0 <= LastCodeIndex(root.children)
    ensures |Run(root, trace).appended| == |CloseOrder(root, trace)|
    ensures var l := LastCodeIndex(root.children);
            Run(root, trace).resolved.Some? <==> IsExec(root, l) && Closed(EventsOf(trace, l))
    ensures var l := LastCodeIndex(root.children);
            Run(root, trace).resolved.Some? ==>
              exists k | 0 <= k < |CloseOrder(root, trace)| ::
                CloseOrder(root, trace)[k] == l
                && Run(root, trace).resolved.value == Run(root, trace).appended[..k + 1]
  {
    var s := Run(root, trace);
    var co := CloseOrder(root, trace);
    var l := LastCodeIndex(root.children);
    assert 0 <= l by {
      var i :| 0 <= i < |root.children| && UsefulLanguage(root.children[i]);
      assert root.children[i].Code?;
    }
    RunSettled(root, trace);
    assert l as nat in co <==> IsExec(root, l) && Closed(EventsOf(trace, l));
    if s.resolved.Some? {
      var k := IndexOf(co, l as nat);
      assert co[k] == l && s.resolved.value == s.appended[..k + 1];
    }
  }

  /** When some block is runnable but the last code block is not, no
      `resolve` call is ever made, whatever the processes do. */
  lemma NeverSettles(root: Root, trace: seq<ProcEvent>)
    requires AnyUseful(root.children)
    requires 0 <= LastCodeIndex(root.children) && !Executable(root.children[LastCodeIndex(root.children)])
    ensures Run(root, trace).resolved == None
  {
    ResolveRule(root, trace);
  }

  /** Without a runnable block nothing is spawned and no event changes
      anything: the array holds one root placeholder when the root has
      code children, two when it has none, and the promise settled after
      the first push. The placeholder has the root's line and no `value`,
      so its `exitCode` is `undefined`. */
  lemma {:induction false} NoRunnableBlock(root: Root, trace: seq<ProcEvent>)
    requires !AnyUseful(root.children)
    ensures Run(root, trace).live == map[]
    ensures var ph := BlockResult(root.line, Undefined, None, None);
            && Run(root, trace).appended == (if LastCodeIndex(root.children) == -1 then [ph, ph] else [ph])
            && Run(root, trace).resolved == Some([ph])
    decreases |trace|
  {
    if trace == [] {
      assert Placeholder(root) == BlockResult(root.line, Undefined, None, None);
      assert forall b: nat | b < |root.children| :: !Executable(root.children[b]) by {
        forall b: nat | b < |root.children|
          ensures !Executable(root.children[b])
        {
          assert !UsefulLanguage(root.children[b]);
        }
      }
      var ph := Placeholder(root);
      var s0 := State(map[], [], None);
      assert s0.appended + [ph] == [ph];
      if LastCodeIndex(root.children) == -1 {
        var s1 := Resolve(s0.(appended := s0.appended + [ph]));
        assert s1.resolved == Some([ph]);
        assert RootBranch(root) == Resolve(s1.(appended := s1.appended + [ph]));
      } else {
        assert RootBranch(root) == Resolve(s0.(appended := s0.appended + [ph]));
      }
      assert Spawned(root).Keys == {};
    } else {
      NoRunnableBlock(root, trace[..|trace| - 1]);
    }
  }

  /** Three runnable blocks at lines 1, 5 and 9. */
  function ThreeBlocks(): Root
  {
    Root([Code(Some("js"), "a", 1), Code(Some("js"), "b", 5), Code(Some("js"), "c", 9)], 1)
  }

  /** All three blocks are spawned, and the root branch pushes nothing. */
  lemma ThreeBlocksStart()
    ensures Start(ThreeBlocks())
            == State(map[0 := Initial(Node(1, Str("a"))), 1 := Initial(Node(5, Str("b"))), 2 := Initial(Node(9, Str("c")))], [], None)
  {
    var root := ThreeBlocks();
    assert UsefulLanguage(root.children[0]);
    assert LastCodeIndex(root.children) == 2;
    assert Spawned(root).Keys == {0, 1, 2};
  }

  /** The second block's process is the slowest and fails. Records are
      appended in close order, and the promise settles when the third block
      closes, before the second has been pushed: the settled array holds
      lines 1 and 9 only. */
  lemma SlowSecondBlockExample()
    ensures var trace := [ProcEvent(0, Close(Num(0))), ProcEvent(2, Close(Num(0))), ProcEvent(1, Close(Num(1)))];
            && Run(ThreeBlocks(), trace).resolved == Some([BlockResult(1, Num(0), None, None), BlockResult(9, Num(0), None, None)])
            && Run(ThreeBlocks(), trace).appended
               == [BlockResult(1, Num(0), None, None), BlockResult(9, Num(0), None, None), BlockResult(5, Num(1), None, None)]
  {
    var root := ThreeBlocks();
    var trace := [ProcEvent(0, Close(Num(0))), ProcEvent(2, Close(Num(0))), ProcEvent(1, Close(Num(1)))];
    assert LastCodeIndex(root.children) == 2;
    var r1 := BlockResult(1, Num(0), None, None);
    var r5 := BlockResult(5, Num(1), None, None);
    var r9 := BlockResult(9, Num(0), None, None);
    ThreeBlocksStart();
    var s0 := Start(root);
    var s1 := Step(root, s0, trace[0]);
    assert s1.appended == [r1] && s1.resolved == None && s1.live.Keys == {1, 2};
    var s2 := Step(root, s1, trace[1]);
    assert s2.appended == [r1, r9] && s2.resolved == Some([r1, r9]) && s2.live.Keys == {1};
    var s3 := Step(root, s2, trace[2]);
    assert s3.appended == [r1, r9, r5] && s3.resolved == Some([r1, r9]);
    assert trace[..2][..1][..0] == [];
    assert Run(root, trace[..1]) == s1;
    assert Run(root, trace[..2]) == s2;
    assert Run(root, trace) == s3;
  }
}

=== FILE: js.dfy ===
/** The few JavaScript value shapes the tool's records and options hold. */
module Js {

  /** An object field that may be absent (`undefined`), or an optional option. */
  datatype Option<T> = None | Some(value: T)

  /** A JavaScript value as stored in a result's `exitCode` field: the
      node's `value` (a string, or `undefined` for the root) before the
      process closes, the close code (an integer, or `null` when the
      process was killed by a signal) afterwards. */
  datatype Value = Undefined | Null | Str(s: string) | Num(n: int)

  /** `v === 0`: strict equality, so neither `'0'` nor `null` nor
      `undefined` is equal to the number zero. */
  predicate IsZero(v: Value)
  {
    v.Num? && v.n == 0
  }

  /** JavaScript truthiness of a string option as `parseArgs` returns it:
      absent and the empty string are falsy. */
  predicate TruthyString(o: Option<string>)
  {
    o.Some? && o.value != ""
  }

  /** JavaScript truthiness of a boolean option: `true` only. */
  predicate TruthyBool(o: Option<bool>)
  {
    o == Some(true)
  }
}

=== FILE: parser.dfy ===
/** `parser` (parser/index.js): builds a result record from a markdown node
    and folds the events of the node's child process into it. */
module Parser {
  import opened Js

  /** The two fields of a markdown node that `parser` reads:
      `position.start.line` and `value`. */
  datatype Node = Node(line: int, value: Value)

  /** The record `parser` resolves with. `stdout` and `stderr` are fields
      that do not exist until a data event of that stream creates them. */
  datatype BlockResult = BlockResult(line: int, exitCode: Value, stdout: Option<string>, stderr: Option<string>)

  /** What a child process emits, chunks already decoded to text. */
  datatype Event = StdoutData(chunk: string) | StderrData(chunk: string) | Close(code: Value)

  /** The first argument of `parser`: the empty string, or a spawned process
      given by the events it emits, in order. */
  datatype Command = NoCommand | Process(events: seq<Event>)

  /** The state of a promise as its consumer sees it. */
  datatype Settlement<T> = Pending | Resolved(value: T)

  /** The record before any event: `line` and `exitCode` copied from the node. */
  function Initial(node: Node): BlockResult
  {
    BlockResult(node.line, node.value, None, None)
  }

  /** One listener firing: a data event replaces its stream's field with the
      chunk, `close` replaces `exitCode` with the code. */
  function Apply(r: BlockResult, e: Event): BlockResult
  {
    match e
    case StdoutData(c) => r.(stdout := Some(c))
    case StderrData(c) => r.(stderr := Some(c))
    case Close(code) => r.(exitCode := code)
  }

  /** The record after the listeners have seen `events`, oldest first. */
  function Replay(r: BlockResult, events: seq<Event>): BlockResult
    decreases |events|
  {
    if events == [] then r
    else Apply(Replay(r, events[..|events| - 1]), events[|events| - 1])
  }

  predicate Closed(events: seq<Event>)
  {
    exists i | 0 <= i < |events| :: events[i].Close?
  }

  /** Event `i` is the last one of its stream in `events`. */
  predicate LastStdoutAt(events: seq<Event>, i: int)
  {
    0 <= i < |events| && events[i].StdoutData?
    && forall j | i < j < |events| :: !events[j].StdoutData?
  }

  predicate LastStderrAt(events: seq<Event>, i: int)
  {
    0 <= i < |events| && events[i].StderrData?
    && forall j | i < j < |events| :: !events[j].StderrData?
  }

  predicate LastCloseAt(events: seq<Event>, i: int)
  {
    0 <= i < |events| && events[i].Close?
    && forall j | i < j < |events| :: !events[j].Close?
  }

  /** Event `k` is the process's first `close`. */
  predicate FirstCloseAt(events: seq<Event>, k: int)
  {
    0 <= k < |events| && events[k].Close?
    && forall j | 0 <= j < k :: !events[j].Close?
  }

  /** The position of the first `close` event, if there is one. */
  function FirstClose(events: seq<Event>): (k: Option<nat>)
    ensures k.Some? <==> Closed(events)
    ensures k.Some? ==> FirstCloseAt(events, k.value)
    decreases |events|
  {
    if events == [] then None
    else if events[0].Close? then Some(0)
    else
      match FirstClose(events[1..])
      case None => None
      case Some(k) => Some(k + 1)
  }

  /** The value the promise returned by `parser(cmd, node)` settles with.
      With the empty command it resolves at once with the initial record;
      the listener registration that follows throws on `''.stdout`, but the
      promise is already resolved, so the rejection is lost. With a process
      it resolves at the first `close`; Node emits `close` after both
      output streams have ended, so no event follows it. */
  function Parse(cmd: Command, node: Node): (p: Settlement<BlockResult>)
    ensures p.Resolved? ==> p.value.line == node.line
    ensures cmd.NoCommand? ==>
              p.Resolved? && p.value.exitCode == node.value
              && p.value.stdout.None? && p.value.stderr.None?
    ensures cmd.Process? ==> (p.Resolved? <==> Closed(cmd.events))
  {
    match cmd
    case NoCommand => Resolved(Initial(node))
    case Process(events) =>
      match FirstClose(events)
      case None => Pending
      case Some(k) =>
        ReplayKeepsLine(Initial(node), events[..k + 1]);
        Resolved(Replay(Initial(node), events[..k + 1]))
  }

  /** No event changes the record's `line`. */
  lemma {:induction false} ReplayKeepsLine(r: BlockResult, events: seq<Event>)
    ensures Replay(r, events).line == r.line
    decreases |events|
  {
    if events != [] {
      ReplayKeepsLine(r, events[..|events| - 1]);
    }
  }

  /** Each field holds what the last event of its kind wrote, and keeps its
      earlier value when no such event happened: chunks replace one another,
      they are never concatenated. */
  lemma ReplayLastWriteWins(r: BlockResult, events: seq<Event>)
    ensures (forall i | 0 <= i < |events| :: !events[i].StdoutData?) ==> Replay(r, events).stdout == r.stdout
    ensures forall i | LastStdoutAt(events, i) :: Replay(r, events).stdout == Some(events[i].chunk)
    ensures (forall i | 0 <= i < |events| :: !events[i].StderrData?) ==> Replay(r, events).stderr == r.stderr
    ensures forall i | LastStderrAt(events, i) :: Replay(r, events).stderr == Some(events[i].chunk)
    ensures (forall i | 0 <= i < |events| :: !events[i].Close?) ==> Replay(r, events).exitCode == r.exitCode
    ensures forall i | LastCloseAt(events, i) :: Replay(r, events).exitCode == events[i].code
  {
    StdoutLastWriteWins(r, events);
    StderrLastWriteWins(r, events);
    ExitCodeLastWriteWins(r, events);
  }

  lemma {:induction false} StdoutLastWriteWins(r: BlockResult, events: seq<Event>)
    ensures (forall i | 0 <= i < |events| :: !events[i].StdoutData?) ==> Replay(r, events).stdout == r.stdout
    ensures forall i | LastStdoutAt(events, i) :: Replay(r, events).stdout == Some(events[i].chunk)
    decreases |events|
  {
    if events != [] {
      var n := |events| - 1;
      var front := events[..n];
      StdoutLastWriteWins(r, front);
      assert Replay(r, events) == Apply(Replay(r, front), events[n]);
      if forall i | 0 <= i < |events| :: !events[i].StdoutData? {
        assert forall i | 0 <= i < n :: !front[i].StdoutData?;
      }
      forall i | LastStdoutAt(events, i)
        ensures Replay(r, events).stdout == Some(events[i].chunk)
      {
        if i < n {
          assert forall j | i < j < n :: front[j] == events[j];
          assert LastStdoutAt(front, i);
        }
      }
    }
  }

  lemma {:induction false} StderrLastWriteWins(r: BlockResult, events: seq<Event>)
    ensures (forall i | 0 <= i < |events| :: !events[i].StderrData?) ==> Replay(r, events).stderr == r.stderr
    ensures forall i | LastStderrAt(events, i) :: Replay(r, events).stderr == Some(events[i].chunk)
    decreases |events|
  {
    if events != [] {
      var n := |events| - 1;
      var front := events[..n];
      StderrLastWriteWins(r, front);
      assert Replay(r, events) == Apply(Replay(r, front), events[n]);
      if forall i | 0 <= i < |events| :: !events[i].StderrData? {
        assert forall i | 0 <= i < n :: !front[i].StderrData?;
      }
      forall i | LastStderrAt(events, i)
        ensures Replay(r, events).stderr == Some(events[i].chunk)
      {
        if i < n {
          assert forall j | i < j < n :: front[j] == events[j];
          assert LastStderrAt(front, i);
        }
      }
    }
  }

  lemma {:induction false} ExitCodeLastWriteWins(r: BlockResult, events: seq<Event>)
    ensures (forall i | 0 <= i < |events| :: !events[i].Close?) ==> Replay(r, events).exitCode == r.exitCode
    ensures forall i | LastCloseAt(events, i) :: Replay(r, events).exitCode == events[i].code
    decreases |events|
  {
    if events != [] {
      var n := |events| - 1;
      var front := events[..n];
      ExitCodeLastWriteWins(r, front);
      assert Replay(r, events) == Apply(Replay(r, front), events[n]);
      if forall i | 0 <= i < |events| :: !events[i].Close? {
        assert forall i | 0 <= i < n :: !front[i].Close?;
      }
      forall i | LastCloseAt(events, i)
        ensures Replay(r, events).exitCode == events[i].code
      {
        if i < n {
          assert forall j | i < j < n :: front[j] == events[j];
          assert LastCloseAt(front, i);
        }
      }
    }
  }

  /** Starting from a node, `stdout` (`stderr`) exists exactly when at least
      one data event of that stream happened. */
  lemma {:induction false} FieldsPresentIffData(node: Node, events: seq<Event>)
    ensures Replay(Initial(node), events).stdout.Some? <==> exists i | 0 <= i < |events| :: events[i].StdoutData?
    ensures Replay(Initial(node), events).stderr.Some? <==> exists i | 0 <= i < |events| :: events[i].StderrData?
    decreases |events|
  {
    if events != [] {
      var n := |events| - 1;
      var front := events[..n];
      FieldsPresentIffData(node, front);
      assert forall i | 0 <= i < n :: front[i] == events[i];
    }
  }

  /** Until a `close` arrives, `exitCode` is the node's `value`, not a number. */
  lemma ExitCodeBeforeClose(node: Node, events: seq<Event>)
    requires !Closed(events)
    ensures Replay(Initial(node), events).exitCode == node.value
  {
    ReplayLastWriteWins(Initial(node), events);
  }

  /** A resolved process record: `exitCode` is the first close's code and
      `stdout`/`stderr` are whatever the data events before it left there. */
  lemma ParseOnClose(events: seq<Event>, node: Node, k: nat)
    requires FirstCloseAt(events, k)
    ensures Parse(Process(events), node)
            == Resolved(Replay(Initial(node), events[..k]).(exitCode := events[k].code))
  {
    var f := FirstClose(events);
    assert f.Some? && f.value == k;
    assert events[..k + 1][..k] == events[..k];
  }

  /** Events after the first `close` do not change what `parser` resolved with. */
  lemma ParseStableAfterClose(events: seq<Event>, node: Node, e: Event)
    requires Closed(events)
    ensures Parse(Process(events + [e]), node) == Parse(Process(events), node)
  {
    var k := FirstClose(events).value;
    assert FirstCloseAt(events + [e], k);
    ParseOnClose(events, node, k);
    ParseOnClose(events + [e], node, k);
    assert (events + [e])[..k] == events[..k];
  }

  /** The process that opens with a data event per stream and then closes. */
  lemma LastChunkWinsExample(node: Node)
    ensures Parse(Process([StdoutData("a"), StderrData("x"), StdoutData("b"), Close(Num(1))]), node)
            == Resolved(BlockResult(node.line, Num(1), Some("b"), Some("x")))
  {
    var events := [StdoutData("a"), StderrData("x"), StdoutData("b"), Close(Num(1))];
    assert FirstCloseAt(events, 3);
    ParseOnClose(events, node, 3);
    assert events[..3] == [StdoutData("a"), StderrData("x"), StdoutData("b")];
    assert events[..3][..2] == [StdoutData("a"), StderrData("x")];
    assert events[..3][..2][..1] == [StdoutData("a")];
  }
}
